=== FILE: README.md ===
# Kadoatery watcher — a Dafny model of its decision logic

`kad-watcher.py` polls the Neopets Kadoatery page, decides whether the set
of hungry kadoaties has refreshed, and announces a refresh on a Discord
channel with a predicted time for the next one. Almost all of the script is
library plumbing (Selenium, cloudscraper, BeautifulSoup, discord.py,
pynput). This project models the decisions made inside that plumbing, and
proves what they guarantee:

- **Watcher state** (`State`): one immutable record holding the baseline
  `current`, the `hungry` ids, the status flag (`Ok`/`Stop`/`Quit`), the
  login failure counter, the held keys of the kill combination, and the
  tick count.
- **Status changes** (`Flags`): the operator command `set_status`, which
  takes `ok`/`stop`/`quit` and defaults to `stop`, and the Ctrl+Esc key
  handlers.
- **Link extraction** (`KadLinks`): keep the hrefs that contain `feed_`,
  then read the integer after the last `=`.
- **Refresh detector** (`Detector`): `hungry := latest - current`. A
  refresh is reported only when the baseline is non-empty and something is
  new, and only then does `latest` become the baseline.
- **Login retry policy** (`Login`): the browser is a script of outcomes.
  The counter rises on each missing element, and the watcher gives up with
  `Quit` at ten. A success resets the counter. A login form that never
  loads raises a timeout that the login does not catch. A bounded-loop
  version is proved equal to the recursive one.
- **Announcement** (`Notice`): the primary estimate is 28 minutes after
  now. Five alternates follow at +7…+35 minutes, printed as `%I:%M %p`.
  The message has one feeding link per new id. Its exact text is given by
  `Render`, whose contract states its line layout.
- **Polling** (`Bot`): `get_new_kad` with re-login on a logged-out page,
  one tick of `check_for_refresh_bot`, and runs of ticks, commands and key
  events.

The network and the browser are total functions from a running index to
what the n-th page fetch or login attempt produced (`Bot.World`), and a
`Bot.Cursor` records how far each has been read. "Now" is a minute of the
day in the site's time zone, and clock arithmetic is taken mod 1440.

**The detector never fires, as written.** The baseline `current_kads`
starts empty (kad-watcher.py:46). It is only assigned inside the branch
that reports a refresh, and that branch needs a non-empty baseline
(kad-watcher.py:183-185). So the baseline is never seeded, and the watcher
never announces anything. `Detector.NeverFiresFromEmpty` proves this for the
detector alone, and `Bot.NeverAnnounces` proves it for any run of ticks,
commands and key events over any pages and logins. A watcher like this
would normally take its first observation as the baseline, so that `{}`
then `{5, 6}` leaves the baseline `{5, 6}`. This one never does, and
`Detector.Scenarios` shows the baseline staying `{}`. The refresh test is
a set difference against the baseline; the largest id is only logged.

Other behaviour of the code that the model keeps as written:

- A logged-out page is retried after every successful re-login, with no
  bound, not just once. The model bounds this with `fuel`.
- The login gives up when the counter reaches ten, not when it passes ten.
- In bot mode `Quit` is not terminal. Ticks skip, as they do under `Stop`,
  and an operator `set_status ok` resumes polling.
- An exception escaping a tick (an id that does not parse, or a login form
  that never loads) stops the polling task for good.

## Model

| member | source | states |
|---|---|---|
| `Text.AfterLast` | kad-watcher.py:181 | the result is the suffix of the href after its last `=` (no `=` in it, preceded by `=`), or the whole href when it has no `=` |
| `Text.ParseNat` | kad-watcher.py:181 | an id parses exactly when the text is a non-empty run of ASCII digits; anything else is the error case |
| `Text.ParseDecimal` | kad-watcher.py:202 | printing an id and parsing it back gives the id |
| `KadLinks.FeedLinks` | kad-watcher.py:172 | only hrefs of the page are kept, and no more of them than the page has |
| `KadLinks.FeedLinksKeep` | kad-watcher.py:172 | an href is kept exactly when it is one of the page's and contains `feed_` |
| `KadLinks.ParseIds` | kad-watcher.py:181 | the parse never reports a logged-out page; a failure names one of the links; a non-empty list of links that parses gives at least one id |
| `KadLinks.ParseIdsCases` | kad-watcher.py:181 | it fails exactly when some feeding link has a non-integer id, naming such a link; otherwise the ids are exactly the parsed ids of the links |
| `KadLinks.Extract` | kad-watcher.py:172-181 | a failing link is one of the page's hrefs, and a successful extraction finds at least one id |
| `KadLinks.ExtractCases` | kad-watcher.py:172-181 | no feeding link at all is the logged-out case; otherwise it fails exactly when some feeding link's id does not parse, naming such a link, else it gives exactly the ids of the feeding links |
| `KadLinks.ExtractOfIds` | kad-watcher.py:172-181 | a page whose hrefs are all feeding links with integer ids yields exactly the set of those ids |
| `Detector.Detect` | kad-watcher.py:181-187 | `hungry` becomes the ids not in the baseline; a refresh is reported iff the baseline is non-empty and some id is new; only then the latest set becomes the baseline; no other field changes |
| `Detector.Idempotent` | kad-watcher.py:182-187 | right after a reported refresh, the same ids again report nothing, leave `hungry` empty and keep the baseline |
| `Detector.BaselineNotRefreshed` | kad-watcher.py:182-187 | the same ids twice without a refresh leave the baseline as before the first |
| `Detector.NeverFiresFromEmpty` | kad-watcher.py:183-185 | from an empty baseline, no series of observations is reported as a refresh, and the baseline stays empty |
| `Detector.Observe` | kad-watcher.py:182-187 | over any series of observations, one verdict per observation, and a series in which no refresh is reported ends on the baseline it started from |
| `Detector.Scenarios` | kad-watcher.py:181-187 | `{1,2,3}` then `{1,2,3,4}` refreshes with hungry `{4}`; `{}` then `{5,6}` does not, and the baseline stays `{}`; `{1,2}` then `{1,2}` does not |
| `Flags.ParseStatus` | kad-watcher.py:59-64 | a word selects a status exactly when it is that status's name `ok`/`stop`/`quit`, matched case-sensitively |
| `Flags.SetStatus` | kad-watcher.py:58-68 | a status word sets that status and replies "Changed bot status to …"; any other word changes nothing and replies "Invalid command"; no argument means `stop` |
| `Flags.OnPress` | kad-watcher.py:71-76 | only keys of the Ctrl+Esc combination are recorded as held; the status becomes `Quit` when the whole combination is held and is otherwise unchanged |
| `Flags.OnRelease` | kad-watcher.py:78-82 | the released key is no longer held; releasing a key that is not held changes nothing |
| `Flags.KillSwitch` | kad-watcher.py:71-76 | pressing Ctrl and Esc, in either order, gives `Quit` from any state |
| `Login.LoginSelenium` | kad-watcher.py:107-134 | all consumed outcomes but the last are missing elements; at most `10 - attempts` (and at least one) are consumed; success resets the counter and sets `Ok`; a welcome-page timeout fails with status unchanged and the counter raised by the earlier missing elements; a login form that never loads escapes as an exception, with the same state; a missing element at the ceiling fails with `Quit` |
| `Login.CeilingExact` | kad-watcher.py:116-123 | starting below ten, the counter never passes ten, and a login that ends on a missing element leaves exactly ten and status `Quit` |
| `Login.LoginLoop` | kad-watcher.py:107-134 | the retry policy as a bounded loop consumes the same outcomes and reaches the same result as the recursive login |
| `Notice.Clock` | kad-watcher.py:203 | a time prints as eight characters `HH:MM AM`/`PM`, two digits, colon, two digits, space, `AM` or `PM` |
| `Notice.ClockRoundTrip` | kad-watcher.py:203 | a printed time reads back as the same minute of the day, so the hour is 01-12, the minute is 00-59, and distinct times print differently |
| `Notice.ClockReadBack` | kad-watcher.py:203 | every string that reads as a time is exactly how that time prints |
| `Notice.Ascending` | kad-watcher.py:201-202 | the new ids are listed once each, all of them and nothing else |
| `Notice.MakeNotice` | kad-watcher.py:198-203 | the primary estimate is now + 28 minutes, the k-th alternate is now + 28 + 7k minutes (k = 1..5, wrapping past midnight), and the links list each new id exactly once |
| `Notice.LinkRoundTrip` | kad-watcher.py:202 | an announced link contains `feed_`, and the extractor reads it back as the same id |
| `Notice.LinkHrefsReadBack` | kad-watcher.py:200-202 | the links of a list of ids, read as a page, give back the set of those ids |
| `Notice.LinksReadBack` | kad-watcher.py:200-202 | the links announced for a set of new ids, read as a page, give back that set |
| `Notice.Render` | kad-watcher.py:200-203 | the posted message splits into the mention line, a blank line, `Next: …`, `Alternate: …`, a blank line, then exactly one feeding link per announced id |
| `Notice.MorningEstimate` | kad-watcher.py:198-203 | a refresh at 10:00 AM predicts 10:28 AM with alternates 10:35, 10:42, 10:49, 10:56 and 11:03 AM |
| `Notice.MidnightEstimate` | kad-watcher.py:198-203 | a refresh at 11:50 PM predicts 12:18 AM, and the last alternate is 12:53 AM |
| `Bot.GetNewKad` | kad-watcher.py:160-187 | a refresh needs a non-empty baseline and leaves non-empty `hungry` ids that are new and now in the baseline; without a refresh the baseline is unchanged; the status only changes to `Ok` or `Quit`; running out of fuel means every fetched page had no feeding link, and (with some fuel) the last login left status `Ok` and the counter at 0 |
| `Bot.ReloginRetries` | kad-watcher.py:174-179 | after a logged-out page and a successful re-login, the poll is exactly a fresh `get_new_kad` from the next page with the state the login left |
| `Bot.FailedReloginEnds` | kad-watcher.py:174-177 | after a logged-out page, a re-login that gives up without the form timing out ends the poll with no refresh and no further fetch, in the state the login left |
| `Bot.LoggedOutPageRelogs` | kad-watcher.py:174-179 | a page with no feeding link always goes to login and is never itself a refresh; if no later page is fetched, baseline and `hungry` are untouched; a login form that never loads ends the poll with the exception and the state as it was |
| `Bot.StatusNeedsLogin` | kad-watcher.py:174-179 | a poll that made no login attempt leaves the status and the failure counter as they were |
| `Bot.PageIsDetect` | kad-watcher.py:171-187 | a fetched page whose feeding links all parse is one detector step: `hungry` becomes the page's ids minus the baseline, the baseline is replaced only on a refresh, and the verdict is the detector's |
| `Bot.BadPageEscapes` | kad-watcher.py:181 | a page with a feeding link whose id does not parse ends the poll with that error and the watcher unchanged |
| `Bot.FetchFailureIsNoRefresh` | kad-watcher.py:161-168 | a connection error or request timeout is no refresh, leaves the watcher unchanged and makes no login attempt |
| `Bot.CheckForRefresh` | kad-watcher.py:194-209 | a tick while not `Ok` changes nothing; a posted notice needs status `Ok` and a non-empty baseline, and carries now + 28 minutes, the five alternates, and exactly the hungry ids; a surviving tick while `Ok` adds one to the count, and a tick that stops polling neither counts nor posts |
| `Bot.RefreshIsAnnounced` | kad-watcher.py:196-204 | a tick while `Ok` on a page with new ids over a non-empty baseline posts the notice for exactly those new ids, keeps polling, and makes the page's ids the baseline |
| `Bot.TickFollowsPoll` | kad-watcher.py:194-209 | a tick while `Ok` takes the poll's state and read position; it keeps polling exactly when the poll returned without an error, and it posts exactly when the poll reported a refresh, announcing the poll's hungry ids |
| `Bot.BadPageStopsPolling` | kad-watcher.py:181-197 | a tick while `Ok` on a page with an unparsable id stops polling, with no post, no count, and the watcher unchanged |
| `Bot.FormTimeoutStopsPolling` | kad-watcher.py:174-197 | a tick while `Ok` on a logged-out page whose login form never loads (the uncaught wait at line 112) stops polling, with no post and the watcher unchanged |
| `Bot.Step` | kad-watcher.py:194-209 | only a tick with polling running and status `Ok` can post; commands and keys never touch the scripts or the polling task; a tick while stopped or not `Ok` changes nothing; a stopped polling task stays stopped, with no fetch and no count |
| `Bot.Run` | kad-watcher.py:194-209 | at most one announcement per event; once the polling task has stopped, no run posts, fetches, logs in or counts again |
| `Bot.NeverAnnounces` | kad-watcher.py:196-203 | from an empty baseline, no run of ticks, commands and key events posts anything, and the baseline stays empty |
| `Bot.StartNeverAnnounces` | kad-watcher.py:45-52 | from the state right after construction, nothing is ever announced |
| `Bot.PressedWithinCombination` | kad-watcher.py:71-82 | over any run, only Ctrl and Esc are ever recorded as held |
| `Bot.PausedTicksIdle` | kad-watcher.py:196-209 | while the status is not `Ok`, any number of ticks neither polls, counts nor posts |
| `Bot.CommandSetsStatus` | kad-watcher.py:57-68 | a status command naming `ok`, `stop` or `quit` sets that status |
| `Bot.InvalidCommandKeepsBot` | kad-watcher.py:57-68 | a command naming no status leaves the bot unchanged and posts nothing |
| `Bot.ReleaseForgetsKey` | kad-watcher.py:78-82 | releasing a key removes it from the held keys and changes nothing else |
| `Bot.KillSwitchHaltsTicks` | kad-watcher.py:70-76 | after Ctrl then Esc, the status is `Quit`, and any number of later ticks neither poll, count nor post |

## Left out

- Browser creation and driving (`create_browser`, the `WebDriverWait` calls, copying cookies into the scraper): foreign library behaviour. Each login attempt is reduced to one scripted outcome: form not loaded, missing element, welcome-page timeout, or success.
- The HTTP GET and its exception classes (kad-watcher.py:161-168): network I/O. A fetch is a scripted result: connection failure, timeout, or a page. Both failures end the poll with no refresh.
- HTML parsing: a page is given as the list of its anchors' hrefs.
- Python `int()` leniency (whitespace, signs, underscores, non-ASCII digits): only ASCII digit strings parse, and everything else is the error case.
- `Text.ParseNat`: does not model the leniency above, because the feeding links this page carries end in plain digits.
- `KadLinks.ParseIdsCases`: the contract names *a* failing link. The body, like the source, stops at the first failing link in page order, but the contract does not promise which one.
- The Discord client, `channel.send`/`publish`, and the task loop's scheduling: an external service and asynchrony. Only the message content is modelled, and an exception escaping a tick stops the polling task.
- The pynput listener thread: its handlers are modelled as sequential events.
- pytz and `datetime.now`: the local minute of the day is an input. Estimates are wall-clock sums wrapped mod 1440. Adding a `timedelta` to a localized time without `normalize()` does the same, so no daylight-saving adjustment happens in the code either.
- The order of the link lines: Python lists a set in hash order, which is unspecified here. The model lists the ids in ascending order, and its contracts speak only of which ids appear.
- `Bot.GetNewKad`: a `fuel` bound caps the unbounded re-login recursion, and using it up ends the tick like an escaping exception would; it stands for the `RecursionError` that endless re-logins would raise. Every tick has positive fuel, so it always fetches at least once.
- `time.time()` diagnostics and the every-3600-ticks log line: floating point and logging only. The tick `count` itself is modelled.
- `login_cloudscraper`: dead code, because its only call is commented out (kad-watcher.py:190).
- `check_for_refresh_local` and its outer loop, and the argparse `__main__` wiring: local mode depends on blocking I/O and a `KeyboardInterrupt`, and is not part of this model.

=== FILE: bot.dfy ===
/** The polling side of the watcher: `get_new_kad` (fetch, extract,
    re-login when logged out, detect) and one tick of
    `check_for_refresh_bot`, plus runs of ticks, operator commands and key
    events. The network and the browser are scripts: total functions from
    a running index to what the n-th request or login attempt produced. */
module Bot {
  import opened Wrappers
  import opened State
  import opened Flags
  import opened KadLinks
  import opened Detector
  import opened Login
  import opened Notice

  /** What one GET of the Kadoatery page produced: a connection-level
      failure, a timeout, or a page, given as the hrefs of its anchors. */
  datatype Fetch = ConnectionFailed | RequestTimedOut | Page(hrefs: seq<string>)

  /** The scripted outside world. */
  datatype World = World(net: nat -> Fetch, browser: nat -> Outcome)

  /** How far into each script the watcher has read. */
  datatype Cursor = Cursor(page: nat, login: nat)

  /** How `get_new_kad` ended: a refresh, no refresh (including a
      transport error and a failed re-login), a feeding link whose id does
      not parse (the `ValueError` that escapes), a re-login whose form
      never appeared (the `TimeoutException` that escapes), or the fuel
      bound on the re-login recursion ran out. */
  datatype Verdict = Refreshed | NoRefresh | BadKadId(href: string) | FormTimedOut | OutOfFuel

  /** Fuel for one tick: every tick fetches the page at least once. */
  type Fuel = n: nat | 0 < n witness 1

  datatype Poll = Poll(verdict: Verdict, w: Watcher, cur: Cursor)

  /** `get_new_kad`, allowed `fuel` page fetches. A transport error ends
      the call; a page without feeding links means the session was lost:
      log in again and, if that worked, start over on a fresh fetch. */
  function GetNewKad(w: Watcher, world: World, cur: Cursor, fuel: nat): (r: Poll)
    ensures r.w.pressed == w.pressed && r.w.count == w.count
    ensures r.verdict == Refreshed ==>
      w.current != {} && r.w.hungry != {} && r.w.hungry <= r.w.current && r.w.hungry !! w.current
    ensures r.verdict != Refreshed ==> r.w.current == w.current
    ensures r.w.status != w.status ==> r.w.status == Ok || r.w.status == Quit
    ensures r.verdict.OutOfFuel? ==>
      r.cur.page == cur.page + fuel && (fuel > 0 ==> r.w.status == Ok && r.w.loginAttempts == 0)
    ensures r.verdict.OutOfFuel? ==> forall j :: cur.page <= j < r.cur.page ==>
      world.net(j).Page? && Extract(world.net(j).hrefs).NoAnchors?
    ensures !r.verdict.OutOfFuel? ==> r.cur.page > cur.page
    ensures cur.page <= r.cur.page <= cur.page + fuel && cur.login <= r.cur.login
    decreases fuel
  {
    if fuel == 0 then Poll(OutOfFuel, w, cur)
    else
      var c := cur.(page := cur.page + 1);
      match world.net(cur.page)
      case ConnectionFailed => Poll(NoRefresh, w, c)
      case RequestTimedOut => Poll(NoRefresh, w, c)
      case Page(hrefs) =>
        match Extract(hrefs)
        case NoAnchors =>
          var l := LoginSelenium(w, world.browser, c.login);
          if l.escaped then Poll(FormTimedOut, l.w, c.(login := l.next))
          else if l.ok then GetNewKad(l.w, world, c.(login := l.next), fuel - 1)
          else Poll(NoRefresh, l.w, c.(login := l.next))
        case BadId(h) => Poll(BadKadId(h), w, c)
        case Ids(latest) =>
          var d := Detect(w, latest);
          Poll(if d.refreshed then Refreshed else NoRefresh, d.w, c)
  }

  /** A page that shows no feeding link is never taken as a refresh by
      itself: it sends the watcher to the login page, a refresh can only
      come from a later fetch after a successful login, and if no later
      fetch happens the detector never ran, so the baseline and the hungry
      ids are as they were. */
  lemma LoggedOutPageRelogs(w: Watcher, world: World, cur: Cursor, fuel: nat)
    requires fuel > 0 && world.net(cur.page).Page? && Extract(world.net(cur.page).hrefs).NoAnchors?
    ensures var r := GetNewKad(w, world, cur, fuel);
      r.cur.login > cur.login &&
      (r.verdict == Refreshed ==> r.cur.page > cur.page + 1) &&
      (r.cur.page == cur.page + 1 ==> r.w.current == w.current && r.w.hungry == w.hungry) &&
      (world.browser(cur.login) == FormTimeout ==> r.verdict == FormTimedOut && r.w == w)
  {
  }

  /** Only a login changes the status or the failure counter: a poll that
      made no login attempt leaves both as they were. */
  lemma StatusNeedsLogin(w: Watcher, world: World, cur: Cursor, fuel: nat)
    ensures var r := GetNewKad(w, world, cur, fuel);
      r.cur.login == cur.login ==> r.w.status == w.status && r.w.loginAttempts == w.loginAttempts
  {
  }

  /** A page with feeding links whose ids all parse is exactly one step of
      the detector: the hungry ids are the page's ids minus the baseline,
      and the page becomes the baseline only when that is a refresh. */
  lemma PageIsDetect(w: Watcher, world: World, cur: Cursor, fuel: nat, hrefs: seq<string>, latest: set<nat>)
    requires fuel > 0 && world.net(cur.page) == Page(hrefs) && Extract(hrefs) == Ids(latest)
    ensures GetNewKad(w, world, cur, fuel).w == Detect(w, latest).w
    ensures GetNewKad(w, world, cur, fuel).w.hungry == latest - w.current
    ensures GetNewKad(w, world, cur, fuel).verdict == (if Detect(w, latest).refreshed then Refreshed else NoRefresh)
  {
  }

  /** A feeding link with an id that does not parse escapes before the
      detector runs, leaving the watcher as it was. */
  lemma BadPageEscapes(w: Watcher, world: World, cur: Cursor, fuel: nat, hrefs: seq<string>, bad: string)
    requires fuel > 0 && world.net(cur.page) == Page(hrefs) && Extract(hrefs) == BadId(bad)
    ensures GetNewKad(w, world, cur, fuel) == Poll(BadKadId(bad), w, cur.(page := cur.page + 1))
  {
  }

  /** After a logged-out page, a successful re-login starts `get_new_kad`
      over: the next page is fetched with the state the login left. */
  lemma ReloginRetries(w: Watcher, world: World, cur: Cursor, fuel: nat)
    requires fuel > 0 && world.net(cur.page).Page? && Extract(world.net(cur.page).hrefs).NoAnchors?
    requires LoginSelenium(w, world.browser, cur.login).ok
    ensures var l := LoginSelenium(w, world.browser, cur.login);
      GetNewKad(w, world, cur, fuel) == GetNewKad(l.w, world, Cursor(cur.page + 1, l.next), fuel - 1)
  {
  }

  /** After a logged-out page, a re-login that gives up without the form
      timing out ends `get_new_kad` with no refresh: nothing more is
      fetched, and the state is what the login left. */
  lemma FailedReloginEnds(w: Watcher, world: World, cur: Cursor, fuel: nat)
    requires fuel > 0 && world.net(cur.page).Page? && Extract(world.net(cur.page).hrefs).NoAnchors?
    requires !LoginSelenium(w, world.browser, cur.login).ok && !LoginSelenium(w, world.browser, cur.login).escaped
    ensures var l := LoginSelenium(w, world.browser, cur.login);
      GetNewKad(w, world, cur, fuel) == Poll(NoRefresh, l.w, Cursor(cur.page + 1, l.next))
  {
  }

  /** A connection error or a request timeout is no refresh, leaves the
      watcher as it was, and makes no login attempt. */
  lemma FetchFailureIsNoRefresh(w: Watcher, world: World, cur: Cursor, fuel: nat)
    requires fuel > 0 && !world.net(cur.page).Page?
    ensures GetNewKad(w, world, cur, fuel) == Poll(NoRefresh, w, cur.(page := cur.page + 1))
  {
  }

  /** What one tick of `check_for_refresh_bot` did: the new state, how far
      the scripts were read, the announcement if one was posted, and
      whether the polling task is still running (an exception escaping
      `get_new_kad` ends it). */
  datatype TickResult = TickResult(w: Watcher, cur: Cursor, post: Option<Notice>, alive: bool)

  /** One tick at minute `now`. Nothing happens unless the status is OK;
      otherwise the page is polled, a refresh is announced, and the tick
      is counted. */
  function CheckForRefresh(w: Watcher, world: World, cur: Cursor, now: MinuteOfDay, fuel: Fuel): (r: TickResult)
    ensures w.status != Ok ==> r == TickResult(w, cur, None, true)
    ensures r.post.Some? ==> w.status == Ok && w.current != {} && r.w.hungry != {}
    ensures r.post.Some? ==> r.post.value.primary == Later(now, EstimateDelay)
    ensures r.post.Some? ==> |r.post.value.alternates| == AlternateCount
    ensures r.post.Some? ==> forall k :: 1 <= k <= AlternateCount ==>
      r.post.value.alternates[k - 1] == Later(now, EstimateDelay + AlternateStep * k)
    ensures r.post.Some? ==> |r.post.value.kads| == |r.w.hungry|
    ensures r.post.Some? ==> forall x :: x in r.w.hungry <==> x in r.post.value.kads
    ensures w.status == Ok ==> (r.alive <==> r.w.count == w.count + 1)
    ensures !r.alive ==> r.post == None && r.w.count == w.count
    ensures r.post.None? ==> r.w.current == w.current
    ensures r.w.pressed == w.pressed
  {
    if w.status != Ok then TickResult(w, cur, None, true)
    else
      var p := GetNewKad(w, world, cur, fuel);
      match p.verdict
      case BadKadId(_) => TickResult(p.w, p.cur, None, false)
      case FormTimedOut => TickResult(p.w, p.cur, None, false)
      case OutOfFuel => TickResult(p.w, p.cur, None, false)
      case Refreshed =>
        TickResult(p.w.(count := p.w.count + 1), p.cur, Some(MakeNotice(now, p.w.hungry)), true)
      case NoRefresh => TickResult(p.w.(count := p.w.count + 1), p.cur, None, true)
  }

  /** A tick while OK follows its poll: it reads as far as the poll did
      and takes the poll's state, counting itself when it survives; it
      keeps polling exactly when the poll ended without an error, and it
      posts exactly when the poll reported a refresh, announcing the
      poll's hungry ids. */
  lemma TickFollowsPoll(w: Watcher, world: World, cur: Cursor, now: MinuteOfDay, fuel: Fuel)
    requires w.status == Ok
    ensures var t := CheckForRefresh(w, world, cur, now, fuel);
      var p := GetNewKad(w, world, cur, fuel);
      t.cur == p.cur && t.w.(count := w.count) == p.w &&
      (t.alive <==> p.verdict == Refreshed || p.verdict == NoRefresh) &&
      (t.post.Some? <==> p.verdict == Refreshed) &&
      (t.post.Some? ==> t.post.value == MakeNotice(now, p.w.hungry))
  {
  }

  /** A tick while OK on a page that shows new ids over a non-empty
      baseline posts the notice for exactly those ids, keeps polling, and
      makes the page the baseline. */
  lemma RefreshIsAnnounced(w: Watcher, world: World, cur: Cursor, now: MinuteOfDay, fuel: Fuel,
                           hrefs: seq<string>, latest: set<nat>)
    requires w.status == Ok && world.net(cur.page) == Page(hrefs) && Extract(hrefs) == Ids(latest)
    requires w.current != {} && latest - w.current != {}
    ensures var t := CheckForRefresh(w, world, cur, now, fuel);
      t.alive && t.post == Some(MakeNotice(now, latest - w.current)) && t.w.current == latest
  {
    PageIsDetect(w, world, cur, fuel, hrefs, latest);
  }

  /** A tick while OK on a page with an id that does not parse stops the
      polling task, without counting, posting or changing the watcher. */
  lemma BadPageStopsPolling(w: Watcher, world: World, cur: Cursor, now: MinuteOfDay, fuel: Fuel,
                            hrefs: seq<string>, bad: string)
    requires w.status == Ok && world.net(cur.page) == Page(hrefs) && Extract(hrefs) == BadId(bad)
    ensures CheckForRefresh(w, world, cur, now, fuel) == TickResult(w, cur.(page := cur.page + 1), None, false)
  {
    BadPageEscapes(w, world, cur, fuel, hrefs, bad);
  }

  /** A tick while OK on a logged-out page whose login form never loads
      stops the polling task, without counting, posting or changing the
      watcher. */
  lemma FormTimeoutStopsPolling(w: Watcher, world: World, cur: Cursor, now: MinuteOfDay, fuel: Fuel)
    requires w.status == Ok && world.net(cur.page).Page? && Extract(world.net(cur.page).hrefs).NoAnchors?
    requires world.browser(cur.login) == FormTimeout
    ensures var t := CheckForRefresh(w, world, cur, now, fuel);
      !t.alive && t.post == None && t.w == w
  {
    LoggedOutPageRelogs(w, world, cur, fuel);
  }

  /** Everything that can happen to the watcher, one at a time. */
  datatype Event =
    | Command(arg: Option<string>)
    | Press(key: Key)
    | Release(key: Key)
    | Tick(now: MinuteOfDay, fuel: Fuel)

  /** The watcher, the script positions, and whether the polling task is
      still running. */
  datatype Bot = Bot(w: Watcher, cur: Cursor, polling: bool)

  const Start: Bot := Bot(Initial, Cursor(0, 0), true)

  /** One event; an announcement is returned when a tick posted one.
      Commands and keys only change the watcher; a tick does nothing once
      the polling task has stopped, and a stopped task never restarts. */
  function Step(b: Bot, world: World, e: Event): (r: (Bot, Option<Notice>))
    ensures r.1.Some? ==> e.Tick? && b.polling && b.w.status == Ok
    ensures !e.Tick? ==> r.0.cur == b.cur && r.0.polling == b.polling
    ensures e.Tick? && !b.polling ==> r == (b, None)
    ensures e.Tick? && b.w.status != Ok ==> r == (b, None)
    ensures !b.polling ==> !r.0.polling && r.0.cur == b.cur && r.0.w.count == b.w.count
  {
    match e
    case Command(arg) => (b.(w := SetStatus(b.w, arg).0), None)
    case Press(k) => (b.(w := OnPress(b.w, k)), None)
    case Release(k) => (b.(w := OnRelease(b.w, k)), None)
    case Tick(now, fuel) =>
      if !b.polling then (b, None)
      else
        var t := CheckForRefresh(b.w, world, b.cur, now, fuel);
        (Bot(t.w, t.cur, t.alive), t.post)
  }

  /** A status command applies `set_status`: naming a status selects it. */
  lemma CommandSetsStatus(b: Bot, world: World, s: Status)
    ensures Step(b, world, Command(Some(StatusName(s)))).0.w.status == s
  {
  }

  /** A command that names no status changes nothing. */
  lemma InvalidCommandKeepsBot(b: Bot, world: World, arg: string)
    requires ParseStatus(arg).None?
    ensures Step(b, world, Command(Some(arg))) == (b, None)
  {
  }

  /** Releasing a key forgets it and leaves everything else as it was. */
  lemma ReleaseForgetsKey(b: Bot, world: World, k: Key)
    ensures var r := Step(b, world, Release(k));
      k !in r.0.w.pressed && r.0 == b.(w := b.w.(pressed := r.0.w.pressed)) && r.1 == None
  {
  }

  /** A series of events, with the announcements posted along the way:
      at most one per event, and none at all once the polling task has
      stopped, which then never fetches, logs in or counts again. */
  function Run(b: Bot, world: World, events: seq<Event>): (r: (Bot, seq<Notice>))
    ensures |r.1| <= |events|
    ensures !b.polling ==> r.1 == [] && !r.0.polling && r.0.cur == b.cur && r.0.w.count == b.w.count
    decreases |events|
  {
    if |events| == 0 then (b, [])
    else
      var (b1, post) := Step(b, world, events[0]);
      var (b2, posts) := Run(b1, world, events[1..]);
      (b2, (if post.Some? then [post.value] else []) + posts)
  }

  /** As written, the watcher never announces anything: the baseline
      starts empty and is only assigned when a refresh is reported, which
      needs a non-empty baseline. Whatever the pages, logins, commands and
      keys, no run from an empty baseline posts, and the baseline stays
      empty. */
  lemma {:induction false} NeverAnnounces(b: Bot, world: World, events: seq<Event>)
    requires b.w.current == {}
    ensures Run(b, world, events).1 == []
    ensures Run(b, world, events).0.w.current == {}
    decreases |events|
  {
    if |events| > 0 {
      var (b1, post) := Step(b, world, events[0]);
      NeverAnnounces(b1, world, events[1..]);
    }
  }

  /** In particular, from start-up. */
  lemma StartNeverAnnounces(world: World, events: seq<Event>)
    ensures Run(Start, world, events).1 == []
  {
    NeverAnnounces(Start, world, events);
  }

  /** Only the two keys of the kill combination are ever recorded as held. */
  lemma {:induction false} PressedWithinCombination(b: Bot, world: World, events: seq<Event>)
    requires b.w.pressed <= Combination
    ensures Run(b, world, events).0.w.pressed <= Combination
    decreases |events|
  {
    if |events| > 0 {
      var (b1, post) := Step(b, world, events[0]);
      PressedWithinCombination(b1, world, events[1..]);
    }
  }

  /** While the status is not OK, ticks neither poll nor count nor post. */
  lemma {:induction false} PausedTicksIdle(b: Bot, world: World, events: seq<Event>)
    requires b.w.status != Ok
    requires forall i :: 0 <= i < |events| ==> events[i].Tick?
    ensures Run(b, world, events) == (b, [])
    decreases |events|
  {
    if |events| > 0 {
      PausedTicksIdle(b, world, events[1..]);
    }
  }

  /** Pressing Ctrl then Esc stops the watcher: no later tick polls, posts,
      or counts. */
  lemma KillSwitchHaltsTicks(b: Bot, world: World, events: seq<Event>)
    requires forall i :: 0 <= i < |events| ==> events[i].Tick?
    ensures var r := Run(b, world, [Press(Ctrl), Press(Esc)] + events);
      r.1 == [] && r.0.cur == b.cur && r.0.w.count == b.w.count && r.0.w.status == Quit
  {
    var es := [Press(Ctrl), Press(Esc)] + events;
    var b1 := Step(b, world, Press(Ctrl)).0;
    var b2 := Step(b1, world, Press(Esc)).0;
    assert es[0] == Press(Ctrl) && es[1..] == [Press(Esc)] + events;
    assert es[1..][0] == Press(Esc) && es[1..][1..] == events;
    assert Step(b, world, es[0]) == (b1, None);
    assert Run(b, world, es).1 == [] + Run(b1, world, es[1..]).1;
    assert Step(b1, world, es[1..][0]) == (b2, None);
    assert Run(b1, world, es[1..]).1 == [] + Run(b2, world, events).1;
    KillSwitch(b.w, Ctrl, Esc);
    PausedTicksIdle(b2, world, events);
  }
}

=== FILE: detector.dfy ===
/** The refresh detector at the heart of `get_new_kad`: the ids of the
    latest page are compared with the baseline `current`. */
module Detector {
  import opened State

  datatype Detection = Detection(refreshed: bool, w: Watcher)

  /** One comparison. `hungry` always becomes the ids not in the baseline;
      a refresh is reported only when the baseline is non-empty and some
      id is new, and only then does the latest set become the baseline. */
  function Detect(w: Watcher, latest: set<nat>): (r: Detection)
    ensures forall k :: k in r.w.hungry <==> k in latest && k !in w.current
    ensures r.refreshed <==> w.current != {} && exists k :: k in latest && k !in w.current
    ensures r.refreshed ==> r.w.current == latest && r.w.hungry != {} && r.w.hungry <= r.w.current
    ensures !r.refreshed ==> r.w.current == w.current
    ensures r.w == w.(current := r.w.current, hungry := r.w.hungry)
  {
    var hungry := latest - w.current;
    if w.current != {} && hungry != {} then
      Detection(true, w.(current := latest, hungry := hungry))
    else
      Detection(false, w.(hungry := hungry))
  }

  /** Seeing the same ids again right after a reported refresh reports
      nothing, leaves no hungry ids and keeps the baseline. */
  lemma Idempotent(w: Watcher, latest: set<nat>)
    requires Detect(w, latest).refreshed
    ensures var again := Detect(Detect(w, latest).w, latest);
      !again.refreshed && again.w.hungry == {} && again.w.current == latest
  {
  }

  /** Seeing the same ids twice without a refresh in between leaves the
      baseline where it was before the first of them. */
  lemma BaselineNotRefreshed(w: Watcher, latest: set<nat>)
    requires !Detect(w, latest).refreshed
    ensures var again := Detect(Detect(w, latest).w, latest);
      !again.refreshed && again.w.current == w.current
  {
  }

  /** The detector run over a series of observations: the verdict of each,
      in order, and the final state. The baseline moves only through a
      reported refresh: a series with no refresh in it ends on the
      baseline it started from. */
  function Observe(w: Watcher, observations: seq<set<nat>>): (r: (seq<bool>, Watcher))
    ensures |r.0| == |observations|
    ensures (forall i :: 0 <= i < |r.0| ==> !r.0[i]) ==> r.1.current == w.current
    decreases |observations|
  {
    if |observations| == 0 then ([], w)
    else
      var d := Detect(w, observations[0]);
      var rest := Observe(d.w, observations[1..]);
      assert ([d.refreshed] + rest.0)[0] == d.refreshed;
      assert forall i :: 0 <= i < |rest.0| ==> ([d.refreshed] + rest.0)[i + 1] == rest.0[i];
      ([d.refreshed] + rest.0, rest.1)
  }

  /** The baseline is only ever assigned inside the reporting branch, and
      that branch needs a non-empty baseline: from an empty baseline no
      series of observations is ever reported as a refresh, and the
      baseline stays empty for good. */
  lemma {:induction false} NeverFiresFromEmpty(w: Watcher, observations: seq<set<nat>>)
    requires w.current == {}
    ensures forall i :: 0 <= i < |observations| ==> !Observe(w, observations).0[i]
    ensures Observe(w, observations).1.current == {}
    decreases |observations|
  {
    if |observations| > 0 {
      var d := Detect(w, observations[0]);
      NeverFiresFromEmpty(d.w, observations[1..]);
    }
  }

  /** Three sample observations: a new id over a non-empty
      baseline is a refresh; a first observation is not, and (as written)
      does not become the baseline either; an unchanged page is not. */
  lemma Scenarios(w: Watcher)
    ensures var d := Detect(w.(current := {1, 2, 3}), {1, 2, 3, 4});
      d.refreshed && d.w.hungry == {4} && d.w.current == {1, 2, 3, 4}
    ensures var d := Detect(w.(current := {}), {5, 6});
      !d.refreshed && d.w.hungry == {5, 6} && d.w.current == {}
    ensures var d := Detect(w.(current := {1, 2}), {1, 2});
      !d.refreshed && d.w.hungry == {} && d.w.current == {1, 2}
  {
    assert 4 in {1, 2, 3, 4} - {1, 2, 3};
  }
}

=== FILE: extract.dfy ===
/** Turning the anchors of the Kadoatery page into kadoatie ids: keep the
    hrefs that mention `feed_`, read the id after the last `=`. */
module KadLinks {
  import opened Wrappers
  import opened Text

  const FeedMarker: string := "feed_"

  /** The anchor filter: an href is a feeding link when it mentions `feed_`
      anywhere (a regular-expression search for `feed_.*`). */
  predicate IsFeedLink(href: string)
  {
    Contains(href, FeedMarker)
  }

  /** The id of a feeding link: the integer after its last `=`. */
  function IdOf(href: string): Option<nat>
  {
    ParseNat(AfterLast(href, '='))
  }

  /** The feeding links of a page, in page order. `FeedLinksKeep` says
      which hrefs they are. */
  function FeedLinks(hrefs: seq<string>): (r: seq<string>)
    ensures forall h :: h in r ==> h in hrefs
    ensures |r| <= |hrefs|
  {
    if |hrefs| == 0 then []
    else (if IsFeedLink(hrefs[0]) then [hrefs[0]] else []) + FeedLinks(hrefs[1..])
  }

  /** An href is kept exactly when it is a feeding link of the page. */
  lemma {:induction false} FeedLinksKeep(hrefs: seq<string>)
    ensures forall h :: h in FeedLinks(hrefs) <==> h in hrefs && IsFeedLink(h)
    decreases |hrefs|
  {
    if |hrefs| > 0 {
      FeedLinksKeep(hrefs[1..]);
      assert forall h :: h in hrefs <==> h == hrefs[0] || h in hrefs[1..];
    }
  }

  /** What a page yields: no feeding link at all (the logged-out signal), a
      feeding link whose id is not an integer (the `ValueError`), or the set
      of ids. */
  datatype Extraction = NoAnchors | BadId(href: string) | Ids(ids: set<nat>)

  /** The ids of a list of feeding links, failing on the first link whose
      id does not parse. `ParseIdsCases` says when each case happens. */
  function ParseIds(links: seq<string>): (r: Extraction)
    ensures !r.NoAnchors?
    ensures r.BadId? ==> r.href in links
    ensures r.Ids? && |links| > 0 ==> r.ids != {}
  {
    if |links| == 0 then Ids({})
    else
      match IdOf(links[0])
      case None => BadId(links[0])
      case Some(k) =>
        var rest := ParseIds(links[1..]);
        if rest.Ids? then Ids({k} + rest.ids) else rest
  }

  /** The parse fails exactly when some link's id does not parse, and then
      names such a link; otherwise the ids are exactly the links' ids. */
  lemma {:induction false} ParseIdsCases(links: seq<string>)
    ensures ParseIds(links).BadId? <==> exists h :: h in links && IdOf(h).None?
    ensures ParseIds(links).BadId? ==> IdOf(ParseIds(links).href).None?
    ensures ParseIds(links).Ids? ==>
      forall k :: k in ParseIds(links).ids <==> exists h :: h in links && IdOf(h) == Some(k)
    decreases |links|
  {
    if |links| > 0 {
      var tail := links[1..];
      ParseIdsCases(tail);
      assert forall h :: h in links <==> h == links[0] || h in tail;
      match IdOf(links[0])
      case None =>
        assert ParseIds(links) == BadId(links[0]);
      case Some(k) =>
        var rest := ParseIds(tail);
        if rest.Ids? {
          assert ParseIds(links) == Ids({k} + rest.ids);
        } else {
          assert ParseIds(links) == rest;
        }
    }
  }

  /** The extraction step of `get_new_kad`: a failing link is one of the
      page's, and a successful extraction finds at least one id.
      `ExtractCases` states exactly when each case happens. */
  function Extract(hrefs: seq<string>): (r: Extraction)
    ensures r.BadId? ==> r.href in hrefs
    ensures r.Ids? ==> r.ids != {}
  {
    var links := FeedLinks(hrefs);
    if |links| == 0 then NoAnchors else ParseIds(links)
  }

  /** The three outcomes of the extraction: no feeding link at all (the
      logged-out page), a feeding link whose id does not parse, or the
      ids of all feeding links. */
  lemma ExtractCases(hrefs: seq<string>)
    ensures Extract(hrefs).NoAnchors? <==> forall h :: h in hrefs ==> !IsFeedLink(h)
    ensures Extract(hrefs).BadId? <==> exists h :: h in hrefs && IsFeedLink(h) && IdOf(h).None?
    ensures Extract(hrefs).BadId? ==> IsFeedLink(Extract(hrefs).href) && IdOf(Extract(hrefs).href).None?
    ensures Extract(hrefs).Ids? ==>
      forall k :: k in Extract(hrefs).ids <==> exists h :: h in hrefs && IsFeedLink(h) && IdOf(h) == Some(k)
  {
    var links := FeedLinks(hrefs);
    FeedLinksKeep(hrefs);
    ParseIdsCases(links);
    if |links| > 0 {
      assert links[0] in links && IsFeedLink(links[0]);
    }
  }

  /** The ids of a list, as a set. */
  function Elements(ks: seq<nat>): (r: set<nat>)
    ensures forall k :: k in r <==> k in ks
  {
    if |ks| == 0 then {} else {ks[0]} + Elements(ks[1..])
  }

  /** A page of feeding links that all carry integer ids yields exactly
      those ids. */
  lemma ExtractOfIds(hrefs: seq<string>, ks: seq<nat>)
    requires |hrefs| == |ks| > 0
    requires forall i :: 0 <= i < |ks| ==> IsFeedLink(hrefs[i]) && IdOf(hrefs[i]) == Some(ks[i])
    ensures Extract(hrefs) == Ids(Elements(ks))
  {
    FeedLinksOfFeedLinks(hrefs);
    ParseIdsOfIds(hrefs, ks);
  }

  lemma {:induction false} FeedLinksOfFeedLinks(hrefs: seq<string>)
    requires forall i :: 0 <= i < |hrefs| ==> IsFeedLink(hrefs[i])
    ensures FeedLinks(hrefs) == hrefs
    decreases |hrefs|
  {
    if |hrefs| > 0 {
      FeedLinksOfFeedLinks(hrefs[1..]);
    }
  }

  lemma {:induction false} ParseIdsOfIds(links: seq<string>, ks: seq<nat>)
    requires |links| == |ks|
    requires forall i :: 0 <= i < |ks| ==> IdOf(links[i]) == Some(ks[i])
    ensures ParseIds(links) == Ids(Elements(ks))
    decreases |links|
  {
    if |links| > 0 {
      ParseIdsOfIds(links[1..], ks[1..]);
    }
  }
}

=== FILE: flags.dfy ===
/** The two ways the status flag changes outside of logging in: the
    operator's `set_status` command and the kill key combination. */
module Flags {
  import opened State
  import opened Wrappers

  /** The word the operator types for each status. */
  function StatusName(s: Status): string
  {
    match s
    case Ok => "ok"
    case Stop => "stop"
    case Quit => "quit"
  }

  /** The status an operator word selects, if any: exactly the inverse of
      `StatusName`. The words are matched exactly, so `OK` or `Stop` select
      nothing. */
  function ParseStatus(arg: string): (r: Option<Status>)
    ensures forall s :: r == Some(s) <==> arg == StatusName(s)
  {
    if arg == "quit" then Some(Quit)
    else if arg == "stop" then Some(Stop)
    else if arg == "ok" then Some(Ok)
    else None
  }

  /** The argument `set_status` uses when the operator gives none. */
  const DefaultArg: string := "stop"

  /** The operator command `set_status [status]`: the new state and the
      reply posted back to the operator. */
  function SetStatus(w: Watcher, arg: Option<string>): (r: (Watcher, string))
    ensures var a := if arg.Some? then arg.value else DefaultArg;
      (forall s :: a == StatusName(s) ==>
         r.0 == w.(status := s) && r.1 == "Changed bot status to " + a) &&
      ((forall s :: a != StatusName(s)) ==> r.0 == w && r.1 == "Invalid command")
    ensures arg.None? ==> r.0.status == Stop
  {
    var a := if arg.Some? then arg.value else DefaultArg;
    match ParseStatus(a)
    case Some(s) => (w.(status := s), "Changed bot status to " + a)
    case None => (w, "Invalid command")
  }

  /** The key listener's press handler: a key of the combination is
      recorded as held, and whenever the whole combination is held the
      status is forced to QUIT. */
  function OnPress(w: Watcher, k: Key): (r: Watcher)
    ensures r.pressed - Combination == w.pressed - Combination
    ensures r.pressed * Combination == w.pressed * Combination + {k} * Combination
    ensures Combination <= r.pressed ==> r.status == Quit
    ensures !(Combination <= r.pressed) ==> r.status == w.status
    ensures r == w.(pressed := r.pressed, status := r.status)
  {
    var pressed := if k in Combination then w.pressed + {k} else w.pressed;
    var status := if Combination <= pressed then Quit else w.status;
    w.(pressed := pressed, status := status)
  }

  /** The key listener's release handler: the key is no longer held;
      releasing a key that is not held (the `KeyError`) changes nothing. */
  function OnRelease(w: Watcher, k: Key): (r: Watcher)
    ensures k !in r.pressed && r.pressed <= w.pressed
    ensures r.pressed + {k} == w.pressed + {k}
    ensures k !in w.pressed ==> r == w
    ensures r == w.(pressed := r.pressed)
  {
    if k in w.pressed then w.(pressed := w.pressed - {k}) else w
  }

  /** Holding the two keys of the combination quits from any state, in
      whichever order they go down. */
  lemma KillSwitch(w: Watcher, first: Key, second: Key)
    requires {first, second} == Combination
    ensures OnPress(OnPress(w, first), second).status == Quit
  {
  }
}

=== FILE: login.dfy ===
/** The browser login of `login_selenium`, reduced to its retry policy.
    The browser is a script of outcomes, one per login attempt: the login
    form never appeared, the form was missing an element, the welcome page
    did not appear in time, or the login went through. */
module Login {
  import opened State

  /** `FormTimeout`: the wait for the username field ran out, and its
      `TimeoutException` is not caught by the login. `MissingElement`: a
      field or the button could not be found while filling the form.
      `Timeout`: the welcome page did not appear; this one is caught. */
  datatype Outcome = FormTimeout | MissingElement | Timeout | Success

  /** Missing-element failures allowed before the watcher gives up. */
  const MaxAttempts: nat := 10

  /** The result of logging in: whether it succeeded, whether it ended in
      an exception that escapes to the caller, the new state, and the
      index of the first browser outcome not consumed. */
  datatype LoginRun = LoginRun(ok: bool, escaped: bool, w: Watcher, next: nat)

  /** How many browser attempts one login can make, starting from a given
      failure count: one per remaining failure below the ceiling, and
      always at least one. */
  function MaxCalls(attempts: nat): nat
  {
    if attempts < MaxAttempts then MaxAttempts - attempts else 1
  }

  /** One call of the login, consuming browser outcomes from index `i`.
      A missing element counts a failure and retries while fewer than ten
      failures have been counted, and otherwise forces QUIT; a timeout
      fails without touching the counter or the status; a success resets
      the counter and sets the status to OK; a form that never appeared
      raises out of the login with the counter as it was.
      The contract states the whole run: every consumed outcome but the
      last was a missing element, the run never exceeds `MaxCalls`, it
      stops at the first outcome that is not a missing element or once the
      ceiling is reached, and the last outcome decides the result. */
  function LoginSelenium(w: Watcher, browser: nat -> Outcome, i: nat): (r: LoginRun)
    ensures i < r.next <= i + MaxCalls(w.loginAttempts)
    ensures forall j :: i <= j < r.next - 1 ==> browser(j) == MissingElement
    ensures r.next - 1 == i || w.loginAttempts + (r.next - 1 - i) < MaxAttempts
    ensures r.ok <==> browser(r.next - 1) == Success
    ensures r.escaped <==> browser(r.next - 1) == FormTimeout
    ensures browser(r.next - 1) == Success ==> r.w == w.(loginAttempts := 0, status := Ok)
    ensures browser(r.next - 1) == Timeout || browser(r.next - 1) == FormTimeout ==>
      r.w == w.(loginAttempts := w.loginAttempts + (r.next - 1 - i))
    ensures browser(r.next - 1) == MissingElement ==>
      r.w == w.(loginAttempts := w.loginAttempts + (r.next - i), status := Quit) &&
      r.w.loginAttempts >= MaxAttempts
    decreases MaxAttempts - w.loginAttempts
  {
    match browser(i)
    case FormTimeout => LoginRun(false, true, w, i + 1)
    case MissingElement =>
      var n := w.loginAttempts + 1;
      if n < MaxAttempts then LoginSelenium(w.(loginAttempts := n), browser, i + 1)
      else LoginRun(false, false, w.(loginAttempts := n, status := Quit), i + 1)
    case Timeout => LoginRun(false, false, w, i + 1)
    case Success => LoginRun(true, false, w.(loginAttempts := 0, status := Ok), i + 1)
  }

  /** Starting below the ceiling, the counter never passes it: a login
      that gives up on missing elements leaves exactly ten failures
      counted and the status QUIT. */
  lemma CeilingExact(w: Watcher, browser: nat -> Outcome, i: nat)
    requires w.loginAttempts < MaxAttempts
    ensures var r := LoginSelenium(w, browser, i);
      r.w.loginAttempts <= MaxAttempts &&
      (browser(r.next - 1) == MissingElement ==> r.w.loginAttempts == MaxAttempts && r.w.status == Quit)
  {
  }

  /** The same policy as a bounded loop instead of recursion: it consumes
      the same outcomes and reaches the same state. */
  method LoginLoop(w: Watcher, browser: nat -> Outcome, i: nat) returns (ok: bool, escaped: bool, w': Watcher, next: nat)
    ensures LoginRun(ok, escaped, w', next) == LoginSelenium(w, browser, i)
  {
    w' := w;
    next := i;
    while true
      invariant LoginSelenium(w', browser, next) == LoginSelenium(w, browser, i)
      decreases MaxAttempts - w'.loginAttempts
    {
      var outcome := browser(next);
      next := next + 1;
      match outcome
      case FormTimeout =>
        return false, true, w', next;
      case MissingElement =>
        w' := w'.(loginAttempts := w'.loginAttempts + 1);
        if w'.loginAttempts >= MaxAttempts {
          w' := w'.(status := Quit);
          return false, false, w', next;
        }
      case Timeout =>
        return false, false, w', next;
      case Success =>
        w' := w'.(loginAttempts := 0, status := Ok);
        return true, false, w', next;
    }
  }
}

=== FILE: notice.dfy ===
/** The content of the refresh announcement: the predicted next refresh,
    five alternate times, and one feeding link per new kadoatie. Times are
    minutes of the day in the site's time zone. */
module Notice {
  import opened Wrappers
  import opened Text
  import opened KadLinks

  const MinutesPerDay: nat := 1440

  type MinuteOfDay = m: int | 0 <= m < MinutesPerDay

  /** Minutes from a detected refresh to the predicted next one. */
  const EstimateDelay: nat := 28

  /** Spacing of the alternate predictions after the primary one. */
  const AlternateStep: nat := 7

  /** Number of alternate predictions. */
  const AlternateCount: nat := 5

  const KadoateryBase: string := "https://www.neopets.com/games/kadoatery/"
  const KadUrl: string := KadoateryBase + "index.phtml"
  const KadLinkPrefix: string := KadoateryBase + FeedMarker + "kadoatie.phtml?kad_id="

  /** The clock time `d` minutes after `m`, wrapping past midnight. */
  function Later(m: MinuteOfDay, d: nat): MinuteOfDay
  {
    (m + d) % MinutesPerDay
  }

  /** A clock time printed as `%I:%M %p`: zero-padded hour 01-12, colon,
      zero-padded minute, space, `AM` or `PM`. */
  function Clock(m: MinuteOfDay): (r: string)
    ensures |r| == 8 && r[2] == ':' && r[5] == ' ' && (r[6] == 'A' || r[6] == 'P') && r[7] == 'M'
    ensures IsDigit(r[0]) && IsDigit(r[1]) && IsDigit(r[3]) && IsDigit(r[4])
    ensures '\n' !in r
  {
    var h := m / 60;
    var mm := m % 60;
    var h12 := if h % 12 == 0 then 12 else h % 12;
    [DigitChar(h12 / 10), DigitChar(h12 % 10), ':', DigitChar(mm / 10), DigitChar(mm % 10), ' ',
     if h < 12 then 'A' else 'P', 'M']
  }

  /** Reads a `%I:%M %p` time back; anything else is rejected. */
  function ReadClock(s: string): (r: Option<MinuteOfDay>)
  {
    if |s| == 8 && IsDigit(s[0]) && IsDigit(s[1]) && s[2] == ':' && IsDigit(s[3]) && IsDigit(s[4]) &&
       s[5] == ' ' && (s[6] == 'A' || s[6] == 'P') && s[7] == 'M'
    then
      var h12 := DigitValue(s[0]) * 10 + DigitValue(s[1]);
      var mm := DigitValue(s[3]) * 10 + DigitValue(s[4]);
      if 1 <= h12 <= 12 && mm < 60 then
        Some((h12 % 12 + (if s[6] == 'P' then 12 else 0)) * 60 + mm)
      else None
    else None
  }

  /** Printing a time and reading it back gives the time again, so two
      different minutes of the day never print alike. */
  lemma ClockRoundTrip(m: MinuteOfDay)
    ensures ReadClock(Clock(m)) == Some(m)
  {
    var s := Clock(m);
    var h := m / 60;
    var h12 := if h % 12 == 0 then 12 else h % 12;
    assert DigitValue(s[0]) * 10 + DigitValue(s[1]) == h12;
    assert DigitValue(s[3]) * 10 + DigitValue(s[4]) == m % 60;
  }

  /** Every string that reads as a time is exactly how that time prints. */
  lemma ClockReadBack(s: string)
    requires ReadClock(s).Some?
    ensures Clock(ReadClock(s).value) == s
  {
    ReadClockFields(s);
    DigitRoundTrip(s[0]);
    DigitRoundTrip(s[1]);
    DigitRoundTrip(s[3]);
    DigitRoundTrip(s[4]);
  }

  /** The fields `Clock` computes from a minute that was read from `s` are
      the digits and half of the day that `s` shows. */
  lemma ReadClockFields(s: string)
    requires ReadClock(s).Some?
    ensures var m := ReadClock(s).value;
      var h := m / 60;
      var h12 := if h % 12 == 0 then 12 else h % 12;
      h12 / 10 == DigitValue(s[0]) && h12 % 10 == DigitValue(s[1]) &&
      (m % 60) / 10 == DigitValue(s[3]) && (m % 60) % 10 == DigitValue(s[4]) &&
      (h < 12) == (s[6] == 'A')
  {
    var m := ReadClock(s).value;
    var h12 := DigitValue(s[0]) * 10 + DigitValue(s[1]);
    var mm := DigitValue(s[3]) * 10 + DigitValue(s[4]);
    var h := m / 60;
    assert h == h12 % 12 + (if s[6] == 'P' then 12 else 0);
    assert m % 60 == mm;
  }

  lemma DigitRoundTrip(c: char)
    requires IsDigit(c)
    ensures DigitChar(DigitValue(c)) == c
  {
  }

  /** The announced content. */
  datatype Notice = Notice(primary: MinuteOfDay, alternates: seq<MinuteOfDay>, kads: seq<nat>)

  /** The least element of a non-empty set of ids. */
  function Least(s: set<nat>): (m: nat)
    requires s != {}
    ensures m in s && forall x :: x in s ==> m <= x
  {
    assert LeastOf(s) in s && forall x :: x in s ==> LeastOf(s) <= x;
    var m :| m in s && forall x :: x in s ==> m <= x;
    m
  }

  /** A least element, found by removing elements one at a time. */
  ghost function LeastOf(s: set<nat>): (m: nat)
    requires s != {}
    ensures m in s && forall x :: x in s ==> m <= x
    decreases |s|
  {
    var y :| y in s;
    if s == {y} then y
    else
      var m := LeastOf(s - {y});
      assert forall x :: x in s ==> x == y || x in s - {y};
      if y < m then y else m
  }

  /** The ids of a set listed once each, in ascending order. */
  function Ascending(s: set<nat>): (r: seq<nat>)
    ensures |r| == |s|
    ensures forall x :: x in s <==> x in r
    ensures forall i, j :: 0 <= i < j < |r| ==> r[i] < r[j]
    decreases |s|
  {
    if s == {} then []
    else
      var m := Least(s);
      var rest := Ascending(s - {m});
      assert forall i :: 0 <= i < |rest| ==> rest[i] in s - {m};
      assert forall x :: x in s <==> x == m || x in s - {m};
      [m] + rest
  }

  /** The announcement for a refresh seen at `now`: the primary estimate
      28 minutes later, the alternates 7, 14, 21, 28 and 35 minutes after
      the primary, and the new ids each listed once. */
  function MakeNotice(now: MinuteOfDay, hungry: set<nat>): (n: Notice)
    ensures n.primary == Later(now, EstimateDelay)
    ensures |n.alternates| == AlternateCount
    ensures forall k :: 1 <= k <= AlternateCount ==>
      n.alternates[k - 1] == Later(now, EstimateDelay + AlternateStep * k)
    ensures |n.kads| == |hungry| && forall x :: x in hungry <==> x in n.kads
    ensures forall i, j :: 0 <= i < j < |n.kads| ==> n.kads[i] != n.kads[j]
  {
    var primary := Later(now, EstimateDelay);
    LaterLater(now, EstimateDelay);
    Notice(primary, seq(AlternateCount, k requires 0 <= k => Later(primary, AlternateStep * (k + 1))), Ascending(hungry))
  }

  /** Waiting `d` and then `e` minutes lands on the same clock time as
      waiting `d + e` minutes. */
  lemma LaterLater(m: MinuteOfDay, d: nat)
    ensures forall e: nat {:trigger Later(Later(m, d), e)} :: Later(Later(m, d), e) == Later(m, d + e)
  {
    forall e: nat ensures Later(Later(m, d), e) == Later(m, d + e) {
      var q := (m + d) / MinutesPerDay;
      assert m + d == q * MinutesPerDay + Later(m, d);
      assert m + d + e == q * MinutesPerDay + (Later(m, d) + e);
    }
  }

  /** The feeding link of a kadoatie. */
  function LinkHref(k: nat): string
  {
    KadLinkPrefix + Decimal(k)
  }

  /** The feeding links of a list of ids, in the same order. */
  function LinkHrefs(kads: seq<nat>): (r: seq<string>)
    ensures |r| == |kads| && forall i :: 0 <= i < |kads| ==> r[i] == LinkHref(kads[i])
  {
    if |kads| == 0 then [] else [LinkHref(kads[0])] + LinkHrefs(kads[1..])
  }

  /** A link the watcher announces is one the extractor accepts, and it
      reads back as the same id. */
  lemma LinkRoundTrip(k: nat)
    ensures IsFeedLink(LinkHref(k))
    ensures IdOf(LinkHref(k)) == Some(k)
  {
    var h := LinkHref(k);
    assert h[|KadoateryBase|..|KadoateryBase| + |FeedMarker|] == FeedMarker;
    assert OccursAt(h, FeedMarker, |KadoateryBase|);
    AfterLastSuffix(KadLinkPrefix, Decimal(k), '=');
    ParseDecimal(k);
  }

  /** What follows the last `=` is recovered exactly. */
  lemma {:induction false} AfterLastSuffix(p: string, d: string, c: char)
    requires |p| > 0 && p[|p| - 1] == c && c !in d
    ensures AfterLast(p + d, c) == d
    decreases |d|
  {
    if |d| > 0 {
      var s := p + d;
      assert s[..|s| - 1] == p + d[..|d| - 1];
      AfterLastSuffix(p, d[..|d| - 1], c);
      assert d == d[..|d| - 1] + [d[|d| - 1]];
    }
  }

  /** The links of a list of ids, fed to the extractor as a page, give
      back the ids of the list. */
  lemma LinkHrefsReadBack(ks: seq<nat>)
    requires |ks| > 0
    ensures Extract(LinkHrefs(ks)) == Ids(Elements(ks))
  {
    LinkHrefsRoundTrip(ks);
    ExtractOfIds(LinkHrefs(ks), ks);
  }

  lemma LinkHrefsRoundTrip(ks: seq<nat>)
    ensures forall i :: 0 <= i < |ks| ==>
      IsFeedLink(LinkHrefs(ks)[i]) && IdOf(LinkHrefs(ks)[i]) == Some(ks[i])
  {
    forall i | 0 <= i < |ks|
      ensures IsFeedLink(LinkHrefs(ks)[i]) && IdOf(LinkHrefs(ks)[i]) == Some(ks[i])
    {
      LinkRoundTrip(ks[i]);
    }
  }

  /** The links announced for a set of new ids, fed to the extractor as a
      page, give back that set. */
  lemma LinksReadBack(kads: set<nat>)
    requires kads != {}
    ensures Extract(LinkHrefs(Ascending(kads))) == Ids(kads)
  {
    LinkHrefsReadBack(Ascending(kads));
    AscendingElements(kads);
  }

  lemma AscendingElements(s: set<nat>)
    ensures Elements(Ascending(s)) == s
  {
  }

  /** `{links}` of the message: a newline and a feeding link per id. */
  function LinkLines(kads: seq<nat>): string
  {
    if |kads| == 0 then "" else "\n" + LinkHref(kads[0]) + LinkLines(kads[1..])
  }

  /** The alternates line of the message. */
  function AlternateLine(alternates: seq<MinuteOfDay>): (r: string)
    ensures '\n' !in r
  {
    if |alternates| == 0 then ""
    else if |alternates| == 1 then Clock(alternates[0])
    else Clock(alternates[0]) + " | " + AlternateLine(alternates[1..])
  }

  /** The announcement as posted to the channel. Its lines are the
      mention and page address, a blank line, `Next:` with the primary
      estimate, `Alternate:` with the alternates, a blank line, and then
      exactly one feeding link per announced id, in the notice's order. */
  function Render(n: Notice): (r: string)
    ensures SplitLines(r) ==
      ["@everyone " + KadUrl, "", "Next: " + Clock(n.primary), "Alternate: " + AlternateLine(n.alternates), ""]
      + LinkHrefs(n.kads)
  {
    var mention := "@everyone " + KadUrl;
    var next := "Next: " + Clock(n.primary);
    var alternate := "Alternate: " + AlternateLine(n.alternates);
    HeaderNoNewline();
    assert '\n' !in next && '\n' !in alternate;
    MessageLayout(mention, next, alternate, n.kads);
    mention + "\n" + "\n" + next + "\n" + alternate + "\n" + LinkLines(n.kads)
  }

  /** A sample estimate: a refresh seen at 10:00 AM
      predicts 10:28 AM, then 10:35, 10:42, 10:49, 10:56 and 11:03 AM. */
  lemma MorningEstimate(hungry: set<nat>)
    ensures var n := MakeNotice(600, hungry);
      Clock(n.primary) == "10:28 AM" &&
      Clock(n.alternates[0]) == "10:35 AM" && Clock(n.alternates[1]) == "10:42 AM" &&
      Clock(n.alternates[2]) == "10:49 AM" && Clock(n.alternates[3]) == "10:56 AM" &&
      Clock(n.alternates[4]) == "11:03 AM"
  {
    MorningMinutes(hungry);
    MorningClocks();
  }

  lemma MorningMinutes(hungry: set<nat>)
    ensures var n := MakeNotice(600, hungry);
      n.primary == 628 && n.alternates[0] == 635 && n.alternates[1] == 642 &&
      n.alternates[2] == 649 && n.alternates[3] == 656 && n.alternates[4] == 663
  {
    var n := MakeNotice(600, hungry);
    assert n.alternates[0] == Later(600, 35) && n.alternates[1] == Later(600, 42);
    assert n.alternates[2] == Later(600, 49) && n.alternates[3] == Later(600, 56);
    assert n.alternates[4] == Later(600, 63);
  }

  lemma MorningClocks()
    ensures Clock(628) == "10:28 AM" && Clock(635) == "10:35 AM" && Clock(642) == "10:42 AM"
    ensures Clock(649) == "10:49 AM" && Clock(656) == "10:56 AM" && Clock(663) == "11:03 AM"
  {
    EarlyMorningClocks();
    LateMorningClocks();
  }

  lemma EarlyMorningClocks()
    ensures Clock(628) == "10:28 AM" && Clock(635) == "10:35 AM" && Clock(642) == "10:42 AM"
  {
    PrintsAs(628, "10:28 AM");
    PrintsAs(635, "10:35 AM");
    PrintsAs(642, "10:42 AM");
  }

  lemma LateMorningClocks()
    ensures Clock(649) == "10:49 AM" && Clock(656) == "10:56 AM" && Clock(663) == "11:03 AM"
  {
    PrintsAs(649, "10:49 AM");
    PrintsAs(656, "10:56 AM");
    PrintsAs(663, "11:03 AM");
  }

  /** A time prints as the text that reads back as it. */
  lemma PrintsAs(m: MinuteOfDay, s: string)
    requires ReadClock(s) == Some(m)
    ensures Clock(m) == s
  {
    ClockReadBack(s);
  }

  /** Estimates wrap past midnight and print the hour after midnight as 12. */
  lemma MidnightEstimate(hungry: set<nat>)
    ensures var n := MakeNotice(1430, hungry);
      Clock(n.primary) == "12:18 AM" && Clock(n.alternates[4]) == "12:53 AM"
  {
    assert MakeNotice(1430, hungry).primary == 18 && MakeNotice(1430, hungry).alternates[4] == 53;
    MidnightClocks();
  }

  lemma MidnightClocks()
    ensures Clock(18) == "12:18 AM" && Clock(53) == "12:53 AM"
  {
    PrintsAs(18, "12:18 AM");
    PrintsAs(53, "12:53 AM");
  }

  /** Three newline-free lines, a blank line between the first two, and
      link lines after a final blank line split back into those lines. */
  lemma MessageLayout(l0: string, l2: string, l3: string, kads: seq<nat>)
    requires '\n' !in l0 && '\n' !in l2 && '\n' !in l3
    ensures SplitLines(l0 + "\n" + "\n" + l2 + "\n" + l3 + "\n" + LinkLines(kads)) ==
      [l0, "", l2, l3, ""] + LinkHrefs(kads)
  {
    var hs := LinkHrefs(kads);
    var tail4 := "" + LinkLines(kads);
    var tail3 := l3 + "\n" + tail4;
    var tail2 := l2 + "\n" + tail3;
    var tail1 := "" + "\n" + tail2;
    assert SplitLines(l0 + "\n" + "\n" + l2 + "\n" + l3 + "\n" + LinkLines(kads)) == [l0] + SplitLines(tail1) by {
      Reassociate(l0, "\n", l2, l3, LinkLines(kads));
      SplitAfterLine(l0, tail1);
    }
    assert SplitLines(tail1) == [""] + SplitLines(tail2) by {
      SplitAfterLine("", tail2);
    }
    assert SplitLines(tail2) == [l2] + SplitLines(tail3) by {
      SplitAfterLine(l2, tail3);
    }
    assert SplitLines(tail3) == [l3] + SplitLines(tail4) by {
      SplitAfterLine(l3, tail4);
    }
    assert SplitLines(tail4) == [""] + hs by {
      LinkLinesSplit("", kads);
    }
    Prepend5(l0, "", l2, l3, "", hs);
  }

  lemma HeaderNoNewline()
    ensures '\n' !in "@everyone " + KadUrl
  {
  }

  lemma Reassociate<T>(a: seq<T>, nl: seq<T>, c: seq<T>, e: seq<T>, g: seq<T>)
    ensures a + nl + nl + c + nl + e + nl + g == a + nl + ([] + nl + (c + nl + (e + nl + ([] + g))))
  {
  }

  lemma Regroup<T>(a: seq<T>, b: seq<T>, c: seq<T>, d: seq<T>)
    ensures a + (b + c + d) == a + b + (c + d)
  {
  }

  lemma Prepend5<T>(a: T, b: T, c: T, d: T, e: T, rest: seq<T>)
    ensures [a] + ([b] + ([c] + ([d] + ([e] + rest)))) == [a, b, c, d, e] + rest
  {
  }

  /** A line followed by link lines splits into that line and the links. */
  lemma {:induction false} LinkLinesSplit(z: string, ks: seq<nat>)
    requires '\n' !in z
    ensures SplitLines(z + LinkLines(ks)) == [z] + LinkHrefs(ks)
    decreases |ks|
  {
    if |ks| == 0 {
      assert z + LinkLines(ks) == z;
    } else {
      var h := LinkHref(ks[0]);
      var rest := h + LinkLines(ks[1..]);
      assert SplitLines(z + LinkLines(ks)) == [z] + SplitLines(rest) by {
        Regroup(z, "\n", h, LinkLines(ks[1..]));
        SplitAfterLine(z, rest);
      }
      assert SplitLines(rest) == [h] + LinkHrefs(ks[1..]) by {
        LinkHrefNoNewline(ks[0]);
        LinkLinesSplit(h, ks[1..]);
      }
    }
  }

  lemma LinkHrefNoNewline(k: nat)
    ensures '\n' !in LinkHref(k)
  {
    var d := Decimal(k);
    assert forall i :: 0 <= i < |d| ==> IsDigit(d[i]);
  }
}

=== FILE: state.dfy ===
/** The watcher's mutable state, as one immutable record that every
    handler returns a new copy of. */
module State {

  /** The bot status flag (`Flag.OK`, `Flag.STOP`, `Flag.QUIT`). */
  datatype Status = Ok | Stop | Quit

  /** A keyboard key as the key listener reports it: the two keys of the
      kill combination, or any other key. */
  datatype Key = Ctrl | Esc | OtherKey(code: nat)

  /** The kill combination: Ctrl and Esc held together. */
  const Combination: set<Key> := {Ctrl, Esc}

  /** Everything the watcher keeps between events.
      - `current`: the baseline of kadoatie ids a refresh is compared with;
      - `hungry`: the ids of the last observation that are not in `current`;
      - `status`: the flag that gates polling;
      - `loginAttempts`: consecutive login failures on a missing element;
      - `pressed`: the keys of the kill combination currently held;
      - `count`: polling ticks performed while the status was OK. */
  datatype Watcher = Watcher(
    current: set<nat>,
    hungry: set<nat>,
    status: Status,
    loginAttempts: nat,
    pressed: set<Key>,
    count: nat)

  /** The state right after construction: nothing observed, status OK. */
  const Initial: Watcher := Watcher({}, {}, Ok, 0, {}, 0)
}

=== FILE: text.dfy ===
/** The string helpers the watcher relies on: substring search, Python's
    `s.split(c)[-1]`, `int()` on digit strings, `str()` of a natural number,
    and `s.split('\n')`. */
module Text {
  import opened Wrappers

  /** `t` occurs in `s` as a contiguous piece (Python's `t in s`). */
  predicate Contains(s: string, t: string)
  {
    exists i :: 0 <= i <= |s| - |t| && OccursAt(s, t, i)
  }

  predicate OccursAt(s: string, t: string, i: int)
    requires 0 <= i <= |s| - |t|
  {
    s[i..i + |t|] == t
  }

  /** The text after the last `c` of `s`, or all of `s` when `c` does not
      occur in it: Python's `s.split(c)[-1]`. */
  function AfterLast(s: string, c: char): (r: string)
    ensures c !in r
    ensures |r| <= |s| && r == s[|s| - |r|..]
    ensures r == s || (|r| < |s| && s[|s| - |r| - 1] == c)
  {
    if |s| == 0 then s
    else if s[|s| - 1] == c then []
    else AfterLast(s[..|s| - 1], c) + [s[|s| - 1]]
  }

  predicate IsDigit(ch: char)
  {
    '0' <= ch <= '9'
  }

  predicate AllDigits(d: string)
  {
    forall i :: 0 <= i < |d| ==> IsDigit(d[i])
  }

  function DigitValue(ch: char): nat
    requires IsDigit(ch)
  {
    ch as int - '0' as int
  }

  function DigitChar(n: nat): (ch: char)
    requires n < 10
    ensures IsDigit(ch) && DigitValue(ch) == n
  {
    ('0' as int + n) as char
  }

  /** The value of a decimal digit string, most significant digit first. */
  function DigitsValue(d: string): nat
    requires AllDigits(d)
  {
    if |d| == 0 then 0 else DigitsValue(d[..|d| - 1]) * 10 + DigitValue(d[|d| - 1])
  }

  /** Python's `int(d)` on the strings this model admits: a non-empty run of
      ASCII digits has its decimal value, anything else is the ValueError. */
  function ParseNat(d: string): (r: Option<nat>)
    ensures r.Some? <==> |d| > 0 && AllDigits(d)
  {
    if |d| > 0 && AllDigits(d) then Some(DigitsValue(d)) else None
  }

  /** Python's `str(n)` for a natural number: its decimal digits without
      leading zeros. */
  function Decimal(n: nat): (r: string)
    ensures |r| > 0 && AllDigits(r)
    ensures |r| > 1 ==> r[0] != '0'
  {
    if n < 10 then [DigitChar(n)] else Decimal(n / 10) + [DigitChar(n % 10)]
  }

  /** `int(str(n)) == n`. */
  lemma {:induction false} ParseDecimal(n: nat)
    ensures ParseNat(Decimal(n)) == Some(n)
  {
    if n >= 10 {
      var d := Decimal(n);
      var p := Decimal(n / 10);
      assert d == p + [DigitChar(n % 10)];
      assert d[..|d| - 1] == p;
      ParseDecimal(n / 10);
      assert DigitsValue(p) == n / 10;
      assert DigitsValue(d) == DigitsValue(p) * 10 + n % 10;
    }
  }

  /** Position of the first `c` in `s`. */
  function IndexOf(s: string, c: char): (i: nat)
    requires c in s
    ensures i < |s| && s[i] == c && c !in s[..i]
  {
    if s[0] == c then 0
    else
      var j := IndexOf(s[1..], c);
      assert s[..1 + j] == [s[0]] + s[1..][..j];
      1 + j
  }

  /** `s` cut at every newline: Python's `s.split('\n')`. */
  function SplitLines(s: string): (r: seq<string>)
    ensures |r| > 0
    decreases |s|
  {
    if '\n' !in s then [s]
    else
      var i := IndexOf(s, '\n');
      [s[..i]] + SplitLines(s[i + 1..])
  }

  /** Splitting a line followed by a newline peels that line off. */
  lemma SplitAfterLine(x: string, y: string)
    requires '\n' !in x
    ensures SplitLines(x + "\n" + y) == [x] + SplitLines(y)
  {
    var s := x + "\n" + y;
    assert s[|x|] == '\n';
    var i := IndexOf(s, '\n');
    assert i == |x|;
    assert s[..i] == x;
    assert s[i + 1..] == y;
  }
}

=== FILE: wrappers.dfy ===
/** Absence of a value, used for the model's error paths. */
module Wrappers {

  datatype Option<+T> = None | Some(value: T)
}
